=== FILE: README.md ===
# Curios and inventory snapshots, modelled in Dafny

This project models the engine under the KubeJS commands `inv_save`,
`inv_load`, `curios backup`, `curios restore`, `curios clear_backup`,
`clear_curios` and `print_curios`: selective copies, snapshots and slot
clearing over a player's NBT tree.

- `tags.dfy` (`Tags`): the tree as an immutable `Tag` datatype with NBT's
  twelve tag kinds. It also holds the primitives the commands use: `Get`,
  `Put`, path lookup `Resolve`, `ListTag.getCompound` and numeric and string
  reads. Because trees are values, every `copy()` in the source is the
  identity here, and a snapshot can never alias the live tree.
- `selectors.dfy` (`Selectors`): the key-path copier of `inv_save`
  (`addIfExists` and the dotted `ForgeData` keys), including its early-stop
  quirk.
- `inventory.dfy` (`Inventory`): `inv_save` builds the backup. `inv_load`
  merges it into the current tree and emits the experience writes in order.
- `curios_slots.dfy` (`CuriosSlots`): the walk over
  `Curios[i]/StacksHandler/Stacks/Items`, which counts items and clears a
  slot while keeping the slot.
- `curios_print.dfy` (`CuriosPrint`): the per-item lines of `print_curios`
  and their defaults.
- `curios_commands.dfy` (`CuriosCommands`): backup, restore and clear_backup
  over the player's persistent data, plus `clear_curios`.

The host calls `player.getNbt`, `player.setNbt` and `player.persistentData`
become inputs and outputs. Each command returns its result code (1 or 0), the
new tree or store, and the counts it reports.

`CurioAndInventory.js:168-570` repeats `CurioModule.js:8-410` line for line.
The Curios logic is modelled once and cited from `CurioModule.js`.

Behaviours of the code the model keeps:

- A path whose intermediate segment is missing does not abort. The walk stops
  there and copies the last key at the level it reached (`Selectors.CopyPathStopsEarly`).
- Intermediate compounds are created before the leaf is looked up, so a
  missing leaf can still leave empty compounds behind.
- `HasCosmetic` is set to the byte 0 rather than to a boolean.
- Cosmetic items are not counted in the cleared total.
- Apart from the list checks on `Items` (tag id 9), nodes are used without a
  type check. In the item count of backup and restore, a `curios:inventory`,
  `StacksHandler` or `Stacks` that is not a compound, or a `Curios` that is a
  scalar tag or a non-empty number array, makes the count throw inside the
  command's `try`, which then returns 0 (`CuriosSlots.CountThrows`); backup
  has already stored the snapshot by then. Restore also fails, leaving the
  tree alone, on a `ForgeCaps` that is not a compound.
- The other wrong-typed nodes (in `clear_curios`, `print_curios` and the
  `ForgeCaps` lookup of backup) would make the code throw outside any `try`.
  The model reads such a node as absent instead; "## Left out" lists each
  case.

## Model

| member | source | states |
|---|---|---|
| Selectors.CopyPath | CurioAndInventory.js:43-53 | one dotted key writes only under its first segment or its last key; every other destination key keeps its value, and a destination that is not a compound is left alone |
| Selectors.CopySelected | CurioAndInventory.js:37-54 | copying a list of dotted keys: a destination key that no selector starts or ends with keeps its value, and the destination only gains keys |
| Selectors.CopyPathDelivers | CurioAndInventory.js:43-52 | when every segment exists in the source, the destination ends up holding the source's node at that path, with missing intermediate compounds created |
| Selectors.CopyPathStopsEarly | CurioAndInventory.js:44-53 | when the first segment is missing from the source, the walk breaks and only the last key is copied, at the top level; nothing else changes |
| Selectors.CopyKeys | CurioAndInventory.js:15-19 | copying single keys: each listed key the source has takes the source's value, every other key keeps the destination's, and no other key appears |
| Selectors.CopyExample | CurioAndInventory.js:38-53 | copying `{A: {B: 5}, C: 9}` by `A.B` into `{A: {X: 1}}` gives `{A: {X: 1, B: 5}}` |
| Inventory.InvSave | CurioAndInventory.js:12-56 | each of the 12 vanilla keys is in the backup if and only if the player has it, with the same value; the backup has no other key except `ForgeData`, which is present, as a compound, exactly when the player has `ForgeData` |
| Inventory.SaveForgeData | CurioAndInventory.js:33-56 | the saved `ForgeData` is `{PlayerPersisted}` when that exists; otherwise it is a misplaced top-level `{NBT}` when that exists (the early-stop quirk), else empty |
| Inventory.SaveKeepsPersistedNbt | CurioAndInventory.js:37-53 | `ForgeData.PlayerPersisted.NBT` is saved at its own path |
| Inventory.XpWrites | CurioAndInventory.js:131-143 | no experience write unless the backup has `XpLevel`; the level is written first, total and progress only when present, strictly in the order level, total, progress |
| Inventory.InvLoad | CurioAndInventory.js:78-143 | no backup: result 0 and the tree is unchanged. Otherwise result 1: every current key is kept, and each restore key takes the backup's value when the backup has it |
| Inventory.InvLoadAsWritten | CurioAndInventory.js:76-84 | the backup is read with `getCompound`, which never gives null, so the command always reports 1 |
| Inventory.NoBackupStillLoads | CurioAndInventory.js:76-84 | with no saved backup, `inv_load` as written reports 1 and leaves the tree as it was |
| Inventory.LoadFromData | CurioAndInventory.js:76-84 | `inv_load` as intended: 0 with the tree unchanged exactly when no compound backup was saved, otherwise the written command's result |
| Inventory.LoadNeverRestores | CurioAndInventory.js:93-115 | `XpLevel`, `XpTotal`, `XpP`, the food keys and `ForgeData` are never changed through the tree |
| Inventory.SaveThenLoad | CurioAndInventory.js:22-115 | loading a saved backup brings back exactly the restore keys the saved tree had, keeps all other current keys, and replays `XpLevel` first when it was saved |
| CuriosSlots.CountCurioItems | CurioModule.js:173-191 | the counting loop throws exactly when the inventory is not a compound, its `Curios` is a scalar tag or a non-empty number array, or some slot's `StacksHandler` or `Stacks` is present but not a compound; otherwise it computes the sum of `Items` list lengths over the slots, where a slot missing any level, or whose `Items` is not a list, adds 0 |
| CuriosSlots.SumItemsAppend | CurioModule.js:176-190 | the item count of two runs of slots is the sum of their counts |
| CuriosSlots.SkippedSlotHoldsNothing | CurioModule.js:363-373 | a slot the clear skips (no `StacksHandler/Stacks` compound) contributes no item to the count |
| CuriosSlots.QualifyingSlotsCounts | CurioModule.js:359-395 | the cleared-slot count is the number of positions whose slot has a `StacksHandler/Stacks` compound |
| CuriosSlots.ClearSlot | CurioModule.js:359-396 | a skipped slot is unchanged. A cleared slot: `Items` becomes an empty list even if it was absent or not a list; `Cosmetics/Items` is emptied only if it was a list; `HasCosmetic` becomes byte 0 only if present; every other field of the slot, handler, stacks and cosmetics is unchanged |
| CuriosSlots.ClearList | CurioModule.js:359-396 | the slot list keeps its length and each slot is cleared in place; a `Curios` node that is not a list is left alone |
| CuriosSlots.ClearedListHoldsNothing | CurioModule.js:369-377 | after the clear, the slot list holds no countable item |
| CuriosSlots.ClearSlotIdempotent | CurioModule.js:375-393 | clearing a cleared slot changes nothing |
| CuriosSlots.ClearKeepsQualifying | CurioModule.js:359-395 | clearing keeps the set of slots the clear works on |
| CuriosPrint.LabelOf | CurioModule.js:67-71 | a slot is named by its `Identifier` when present, otherwise `unknown_<index>` |
| CuriosPrint.LineOf | CurioModule.js:86-92 | an item's line carries its slot; id defaults to `unknown` and count to 1 when missing; a string id and an int or byte count are reported as stored |
| CuriosPrint.SlotLines | CurioModule.js:73-92 | a slot reports one line per element of its `Items` list, in order; line `j` is the line of item `j` under the slot's label, with the id and count defaults of `LineOf` |
| CuriosPrint.LinesMatchCount | CurioModule.js:62-92 | `print_curios` reports exactly as many lines as the item count counts |
| CuriosPrint.LinesComeFromSlots | CurioModule.js:62-98 | every reported line is the line of item `j` of some slot `i`, labelled by that slot, and sits at position `SumItems(slots[..i]) + j` |
| CuriosPrint.PrintCurios | CurioModule.js:27-62 | reports lines exactly when `ForgeCaps/curios:inventory/Curios` exists, one per counted item; the lines are those of the slot list, slot by slot |
| CuriosCommands.Backup | CurioModule.js:152-199 | fails (0, store unchanged) without `ForgeCaps` or `curios:inventory`; otherwise stores that node under `curios_backup`, overwriting, and leaves other labels alone; it reports 1 and the item count exactly when the count can read the node, and 0 with the snapshot already stored when it cannot |
| CuriosCommands.Restore | CurioModule.js:212-287 | fails (0, tree unchanged) without a non-empty compound snapshot, when `ForgeCaps` is not a compound, or when the count of the current inventory throws; otherwise `ForgeCaps/curios:inventory` equals the snapshot, `ForgeCaps` is created if missing, and all other top-level and `ForgeCaps` keys are unchanged; it then reports 1 with the counts before and after exactly when the snapshot's count does not throw, and 0 with the tree already set when it does |
| CuriosCommands.BackupFailsOnScalarCurios | CurioModule.js:165-199 | a `curios:inventory` whose `Curios` is the int 3 is stored under `curios_backup`, yet the command returns 0 |
| CuriosCommands.RestoreFailsAfterWrite | CurioModule.js:259-287 | a snapshot with a slot whose `StacksHandler` is a string is written back, yet the command returns 0 |
| CuriosCommands.ClearBackup | CurioModule.js:304-312 | returns 1 and removes `curios_backup` if and only if it is present; otherwise 0 with the store unchanged; other labels are kept |
| CuriosCommands.ClearCurios | CurioModule.js:334-407 | fails (0, unchanged) without `ForgeCaps/curios:inventory/Curios`; otherwise clears every slot, reports the qualifying slots and the item count taken before the clear, and changes nothing outside the `Curios` list |
| CuriosCommands.ClearCuriosLeavesNoItems | CurioModule.js:366-377 | after the clear the inventory counts 0 items, so a second run reports 0 cleared items |
| CuriosCommands.ClearCuriosTwiceSlots | CurioModule.js:359-395 | a second clear succeeds and reports the same number of slots |
| CuriosCommands.ClearCuriosIdempotent | CurioModule.js:358-396 | a second clear leaves the tree exactly as the first clear left it |
| CuriosCommands.BackupOverwrites | CurioModule.js:167-170 | a second backup replaces the first; the store keeps no history |
| CuriosCommands.BackupClearRestore | CurioModule.js:165-262 | for a non-empty inventory the count can read, backup, then clear, then restore succeeds and gives back the original tree exactly; later changes to the live tree never reach the snapshot |
| CuriosCommands.BackupThenRestore | CurioModule.js:167-287 | a backup restores into any tree whose `ForgeCaps` is missing or a compound and whose current inventory the count can read, putting back the same `curios:inventory`; restore reports success, and the same item count, exactly when the backup did |
| CuriosCommands.ClearBackupThenRestore | CurioModule.js:213-217 | after `clear_backup`, restore fails |

## Left out

- Command registration, the chat messages, emoji text and `console.log` output are left out. The model keeps only the result codes and counts.
- `player.getNbt`, `player.setNbt`, `persistentData`, `inventory.setChanged` and `syncXp` are host calls. The tree and the store are explicit inputs and outputs. The null checks on `player` and on the tree are left out.
- The experience writes after `persistentData.put` in `inv_save` (CurioAndInventory.js:58-63) are left out. Whether they reach the stored backup depends on host copy semantics.
- The game's experience rules are left out. `inv_load` is modelled as the ordered list of writes it issues.
- `print_curios` text rendering, `toUpperCase`, `toString` and the JSON dumps of item tags are left out. The slot name `unknown_<i>` is kept as a label value, not a string.
- Inventory.InvLoad: takes the saved backup as an option; how the command looks it up is under Findings.
- Dotted keys are modelled already split (`PlayerPersisted.NBT` becomes `["PlayerPersisted", "NBT"]`).
- `if (nbt.ForgeData)` is read as "`ForgeData` is present". JavaScript truthiness of a scalar tag is host behaviour.
- CuriosCommands.Backup: a `ForgeCaps` that is not a compound reads as missing (result 0). In the source the call `.get` on it would throw outside the `try`.
- CuriosCommands.ClearCurios: a slot whose `StacksHandler` or `Stacks` is present but not a compound is skipped. In the source the command would throw outside any `try`, so the tree would not be set. A `Cosmetics` that is a scalar tag would throw too; the model still empties that slot's `Items` and counts the slot, and skips only its cosmetics step.
- CuriosCommands.ClearCurios: a `Curios` that is neither a list nor a compound is left alone and the command reports 1 with no slots. In the source `size()` or `getCompound` on it would throw outside any `try`.
- CuriosPrint.PrintCurios: a `curios:inventory` that is not a compound reads as missing (no lines), and a `Curios` that is neither a list nor a compound reports no lines. In the source both would throw outside the `try`.
- A `Curios` compound is read as holding no slots by every command. In the source the loop would run over its key count and look up the keys `"0"`, `"1"`, … through the host's conversion of the index argument.
- CuriosCommands.Restore: `ForgeCaps` is created with the host's `NbtCompound` constructor, which the script uses without defining or loading it. The model assumes the host binds it to an empty compound. Without that binding, restore into a tree with no `ForgeCaps` would throw inside the `try` and return 0 with the tree unchanged.
- A list-typed node asked for a key is treated like any other non-compound node. How the script host converts the argument for a list is not part of this model.
- CuriosPrint.LineOf: the numeric conversion of `Count` is Minecraft's and is not part of this model. Integer kinds are exact, `Long` wraps to 32 bits, and floating kinds round down without Java's saturation at the int range.
- The ranges of numeric tags (such as a byte fitting in 8 bits) are not enforced by the datatype.
- The `try` of `inv_load` is left out, since none of its modelled steps throws.
- The snapshot store is one player's persistent data. Isolation between players follows from passing each player's store separately.

## Findings

| source | as written | input that shows it | evidently intended | confidence | as-written member | corrected member |
|---|---|---|---|---|---|---|
| CurioAndInventory.js:76-84 | the backup is read with `getCompound("backup")` and the command fails only `if (!backup)` | a player whose persistent data has no `backup`: `getCompound` gives an empty compound, the check passes, and the command reports "Inventory loaded!" with result 1 | fail with result 0 and "No saved inventory found!" when no backup was saved | medium, not executed | Inventory.NoBackupStillLoads | Inventory.LoadFromData |

=== FILE: curios_commands.dfy ===
/**
 * The Curios commands: `curios backup`, `curios restore`,
 * `curios clear_backup` and `clear_curios`.
 *
 * Each takes the player's tree and/or the player's persistent data (the
 * snapshot store) as values and returns the result code the command returns
 * (1 for success, 0 for failure), the new tree or store, and the counts the
 * command reports.
 */
module CuriosCommands {
  import opened Tags
  import opened CuriosSlots

  /** A player's persistent data: a compound from label to tree. */
  type Store = map<string, Tag>

  /** The one label the Curios snapshot lives under (a single slot, no history). */
  const BackupLabel := "curios_backup"

  /** What `curios restore` accepts as a backup: present and not an empty compound. */
  predicate HasSnapshot(store: Store) {
    StoredCompound(store, BackupLabel).Some? && |StoredCompound(store, BackupLabel).value| > 0
  }

  lemma InventoryStep(nbt: Fields)
    ensures Resolve(Compound(nbt), InventoryPath)
         == match Get(Compound(nbt), "ForgeCaps") case None => None case Some(caps) => Get(caps, "curios:inventory")
    ensures Resolve(Compound(nbt), CuriosPath)
         == match Resolve(Compound(nbt), InventoryPath) case None => None case Some(inv) => Get(inv, "Curios")
  {
    ResolveAppend(Compound(nbt), ["ForgeCaps"], ["curios:inventory"]);
    assert ["ForgeCaps"] + ["curios:inventory"] == InventoryPath;
    ResolveAppend(Compound(nbt), InventoryPath, ["Curios"]);
    assert InventoryPath + ["Curios"] == CuriosPath;
    match Get(Compound(nbt), "ForgeCaps") {
      case None =>
      case Some(caps) =>
        match Get(caps, "curios:inventory") {
          case None =>
          case Some(inv) =>
        }
    }
  }

  datatype BackupOutcome = BackupOutcome(code: nat, store: Store, items: nat)

  /**
   * `curios backup`: fails, leaving the store alone, without
   * `ForgeCaps/curios:inventory`; otherwise stores that node under
   * `curios_backup`, replacing any earlier snapshot, and counts its items.
   * The count runs inside the command's `try` after the store, so an
   * inventory it cannot read leaves the snapshot stored and returns 0.
   */
  function Backup(nbt: Fields, store: Store): (r: BackupOutcome)
    ensures Resolve(Compound(nbt), InventoryPath).None? ==> r == BackupOutcome(0, store, 0)
    ensures Resolve(Compound(nbt), InventoryPath).Some? ==>
              var inv := Resolve(Compound(nbt), InventoryPath).value;
              && r.store.Keys == store.Keys + {BackupLabel}
              && r.store[BackupLabel] == inv
              && (forall l :: l in store && l != BackupLabel ==> r.store[l] == store[l])
              && (r.code == 1 <==> !CountThrows(inv))
              && r.items == if r.code == 1 then CountItems(inv) else 0
  {
    InventoryStep(nbt);
    match Get(Compound(nbt), "ForgeCaps")
    case None => BackupOutcome(0, store, 0)
    case Some(caps) =>
      match Get(caps, "curios:inventory")
      case None => BackupOutcome(0, store, 0)
      case Some(inv) =>
        var stored := store[BackupLabel := inv];
        if CountThrows(inv) then BackupOutcome(0, stored, 0)
        else BackupOutcome(1, stored, CountItems(inv))
  }

  datatype RestoreOutcome = RestoreOutcome(code: nat, nbt: Fields, itemsBefore: nat, itemsAfter: nat)

  /**
   * The conditions under which `curios restore` reaches its write: a
   * non-empty snapshot, a `ForgeCaps` that is missing or a compound, and a
   * current Curios inventory the count before the write can read.
   */
  predicate RestoreWrites(store: Store, nbt: Fields) {
    && HasSnapshot(store)
    && ("ForgeCaps" !in nbt || nbt["ForgeCaps"].Compound?)
    && (Resolve(Compound(nbt), InventoryPath).None? || !CountThrows(Resolve(Compound(nbt), InventoryPath).value))
  }

  /**
   * `curios restore`: fails without a non-empty snapshot. Otherwise, inside
   * the command's `try`, it creates `ForgeCaps` if missing, counts the
   * current items, puts the snapshot at `ForgeCaps/curios:inventory`, sets
   * the tree and counts the snapshot's items. A step that throws before the
   * write fails with the tree untouched; a snapshot the final count cannot
   * read fails with the tree already set.
   */
  function Restore(store: Store, nbt: Fields): (r: RestoreOutcome)
    ensures !RestoreWrites(store, nbt) ==> r == RestoreOutcome(0, nbt, 0, 0)
    ensures RestoreWrites(store, nbt) ==>
              var snapshot := StoredCompound(store, BackupLabel).value;
              && Resolve(Compound(r.nbt), InventoryPath) == Some(Compound(snapshot))
              && r.nbt.Keys == nbt.Keys + {"ForgeCaps"}
              && SameExcept(Compound(nbt), Compound(r.nbt), {"ForgeCaps"})
              && SameExcept(At(Compound(nbt), ["ForgeCaps"]), r.nbt["ForgeCaps"], {"curios:inventory"})
              && (r.code == 1 <==> !CountThrows(Compound(snapshot)))
              && r.itemsBefore == (if r.code == 1 then CountItems(At(Compound(nbt), InventoryPath)) else 0)
              && r.itemsAfter == (if r.code == 1 then CountItems(Compound(snapshot)) else 0)
  {
    InventoryStep(nbt);
    if !HasSnapshot(store) then RestoreOutcome(0, nbt, 0, 0)
    else if "ForgeCaps" in nbt && !nbt["ForgeCaps"].Compound? then RestoreOutcome(0, nbt, 0, 0)
    else
      var snapshot := StoredCompound(store, BackupLabel).value;
      var caps := if "ForgeCaps" in nbt then nbt["ForgeCaps"] else Empty;
      var current := Get(caps, "curios:inventory");
      if current.Some? && CountThrows(current.value) then RestoreOutcome(0, nbt, 0, 0)
      else
        var before := match current case Some(inv) => CountItems(inv) case None => 0;
        var restored := nbt["ForgeCaps" := Put(caps, "curios:inventory", Compound(snapshot))];
        if CountThrows(Compound(snapshot)) then RestoreOutcome(0, restored, 0, 0)
        else RestoreOutcome(1, restored, before, CountItems(Compound(snapshot)))
  }

  datatype ClearBackupOutcome = ClearBackupOutcome(code: nat, store: Store)

  /** `curios clear_backup`: removes the snapshot and reports 1 exactly when there is one. */
  function ClearBackup(store: Store): (r: ClearBackupOutcome)
    ensures r.code == 1 <==> BackupLabel in store
    ensures r.code != 1 ==> r == ClearBackupOutcome(0, store)
    ensures BackupLabel !in r.store
    ensures r.store.Keys == store.Keys - {BackupLabel}
    ensures forall l :: l in r.store ==> r.store[l] == store[l]
  {
    if BackupLabel in store then ClearBackupOutcome(1, store - {BackupLabel})
    else ClearBackupOutcome(0, store)
  }

  datatype ClearOutcome = ClearOutcome(code: nat, nbt: Fields, clearedSlots: nat, clearedItems: nat)

  /**
   * `clear_curios`: fails without `ForgeCaps/curios:inventory/Curios`;
   * otherwise clears every slot of the list (see `ClearSlot`) and reports the
   * slots it worked on and the items they held.
   */
  function ClearCurios(nbt: Fields): (r: ClearOutcome)
    ensures Resolve(Compound(nbt), CuriosPath).None? ==> r == ClearOutcome(0, nbt, 0, 0)
    ensures Resolve(Compound(nbt), CuriosPath).Some? ==>
              var list := Resolve(Compound(nbt), CuriosPath).value;
              && r.code == 1
              && r.clearedItems == CountItems(At(Compound(nbt), InventoryPath))
              && r.clearedSlots == QualifyingSlots(Elements(list))
              && Resolve(Compound(r.nbt), CuriosPath) == Some(ClearList(list))
              && SameExcept(Compound(nbt), Compound(r.nbt), {"ForgeCaps"})
              && r.nbt.Keys == nbt.Keys
              && SameExcept(At(Compound(nbt), ["ForgeCaps"]), At(Compound(r.nbt), ["ForgeCaps"]), {"curios:inventory"})
              && SameExcept(At(Compound(nbt), InventoryPath), At(Compound(r.nbt), InventoryPath), {"Curios"})
  {
    InventoryStep(nbt);
    match Get(Compound(nbt), "ForgeCaps")
    case None => ClearOutcome(0, nbt, 0, 0)
    case Some(caps) =>
      match Get(caps, "curios:inventory")
      case None => ClearOutcome(0, nbt, 0, 0)
      case Some(inv) =>
        match Get(inv, "Curios")
        case None => ClearOutcome(0, nbt, 0, 0)
        case Some(list) =>
          var cleared := nbt["ForgeCaps" := Put(caps, "curios:inventory", Put(inv, "Curios", ClearList(list)))];
          InventoryStep(cleared);
          ClearOutcome(1, cleared, QualifyingSlots(Elements(list)), SumItems(Elements(list)))
  }

  /** After `clear_curios` the inventory holds no countable item, so a second run reports 0 items. */
  lemma ClearCuriosLeavesNoItems(nbt: Fields)
    requires Resolve(Compound(nbt), CuriosPath).Some?
    ensures CountItems(At(Compound(ClearCurios(nbt).nbt), InventoryPath)) == 0
  {
    var list := Resolve(Compound(nbt), CuriosPath).value;
    InventoryStep(nbt);
    InventoryStep(ClearCurios(nbt).nbt);
    ClearedListHoldsNothing(list);
  }

  /** A second `clear_curios` succeeds and works on the same slots as the first. */
  lemma ClearCuriosTwiceSlots(nbt: Fields)
    requires Resolve(Compound(nbt), CuriosPath).Some?
    ensures var first := ClearCurios(nbt);
      var second := ClearCurios(first.nbt);
      && second.code == 1
      && second.clearedSlots == first.clearedSlots
  {
    var list := Resolve(Compound(nbt), CuriosPath).value;
    InventoryStep(nbt);
    InventoryStep(ClearCurios(nbt).nbt);
    if list.List? {
      ClearKeepsQualifying(list.elems);
    }
  }

  /** A second `clear_curios` leaves the tree as the first one left it. */
  lemma ClearCuriosIdempotent(nbt: Fields)
    requires Resolve(Compound(nbt), CuriosPath).Some?
    ensures ClearCurios(ClearCurios(nbt).nbt).nbt == ClearCurios(nbt).nbt
  {
    var first := ClearCurios(nbt);
    var list := Resolve(Compound(nbt), CuriosPath).value;
    var clearedList := ClearList(list);
    InventoryStep(nbt);
    InventoryStep(first.nbt);
    if list.List? {
      forall i | 0 <= i < |list.elems|
        ensures ClearSlot(clearedList.elems[i]) == clearedList.elems[i]
      {
        ClearSlotIdempotent(list.elems[i]);
      }
      assert ClearList(clearedList) == clearedList;
    }
    var caps := first.nbt["ForgeCaps"];
    var inv := caps.fields["curios:inventory"];
    assert Get(inv, "Curios") == Some(clearedList);
    PutExisting(inv, "Curios");
    PutExisting(caps, "curios:inventory");
    assert first.nbt["ForgeCaps" := caps] == first.nbt;
  }

  /** A fresh backup replaces the earlier one: the store keeps no history. */
  lemma BackupOverwrites(first: Fields, second: Fields, store: Store)
    requires Resolve(Compound(first), InventoryPath).Some?
    requires Resolve(Compound(second), InventoryPath).Some?
    ensures Backup(second, Backup(first, store).store).store == Backup(second, store).store
  {
  }

  /** `clear_curios` leaves an inventory the count can read readable. */
  lemma ClearKeepsInventoryReadable(nbt: Fields)
    requires Resolve(Compound(nbt), InventoryPath).Some?
    requires !CountThrows(Resolve(Compound(nbt), InventoryPath).value)
    ensures Resolve(Compound(ClearCurios(nbt).nbt), InventoryPath).Some?
    ensures !CountThrows(Resolve(Compound(ClearCurios(nbt).nbt), InventoryPath).value)
  {
    var cleared := ClearCurios(nbt);
    InventoryStep(nbt);
    InventoryStep(cleared.nbt);
    var inv := Resolve(Compound(nbt), InventoryPath).value;
    match Get(inv, "Curios") {
      case None =>
      case Some(list) =>
        ClearListKeepsReadable(list);
        assert Get(Resolve(Compound(cleared.nbt), InventoryPath).value, "Curios") == Some(ClearList(list));
    }
  }

  /**
   * Taking a backup, clearing the equipped items and restoring gives back the
   * original tree exactly: later changes to the live tree never reach the
   * snapshot.
   */
  lemma BackupClearRestore(nbt: Fields, store: Store)
    requires Resolve(Compound(nbt), InventoryPath).Some?
    requires !CountThrows(Resolve(Compound(nbt), InventoryPath).value)
    requires |Resolve(Compound(nbt), InventoryPath).value.fields| > 0
    ensures var saved := Backup(nbt, store);
      var restored := Restore(saved.store, ClearCurios(nbt).nbt);
      && restored.code == 1
      && restored.nbt == nbt
      && restored.itemsAfter == saved.items
  {
    var saved := Backup(nbt, store);
    var cleared := ClearCurios(nbt);
    InventoryStep(nbt);
    ClearKeepsInventoryReadable(nbt);
    var caps := nbt["ForgeCaps"];
    var inv := caps.fields["curios:inventory"];
    assert StoredCompound(saved.store, BackupLabel) == Some(inv.fields);
    assert RestoreWrites(saved.store, cleared.nbt);
    var restored := Restore(saved.store, cleared.nbt);
    InventoryStep(restored.nbt);
    var capsCleared := At(Compound(cleared.nbt), ["ForgeCaps"]);
    var capsBack := restored.nbt["ForgeCaps"];
    SameExceptTrans(caps, capsCleared, capsBack, {"curios:inventory"});
    SameExceptAgree(caps, capsBack, {"curios:inventory"});
    SameExceptTrans(Compound(nbt), Compound(cleared.nbt), Compound(restored.nbt), {"ForgeCaps"});
    SameExceptAgree(Compound(nbt), Compound(restored.nbt), {"ForgeCaps"});
  }

  /**
   * A backup restores into any tree whose `ForgeCaps` is missing or a
   * compound and whose current inventory the count can read; the command
   * reports success exactly when the backup did.
   */
  lemma BackupThenRestore(nbt: Fields, store: Store, live: Fields)
    requires Resolve(Compound(nbt), InventoryPath).Some?
    requires Resolve(Compound(nbt), InventoryPath).value.Compound?
    requires |Resolve(Compound(nbt), InventoryPath).value.fields| > 0
    requires "ForgeCaps" !in live || live["ForgeCaps"].Compound?
    requires Resolve(Compound(live), InventoryPath).None? || !CountThrows(Resolve(Compound(live), InventoryPath).value)
    ensures var saved := Backup(nbt, store);
      var restored := Restore(saved.store, live);
      && restored.code == saved.code
      && Resolve(Compound(restored.nbt), InventoryPath) == Resolve(Compound(nbt), InventoryPath)
      && restored.itemsAfter == saved.items
  {
  }

  /**
   * A snapshot whose slot the count cannot read is still written back, but
   * the command reports failure.
   */
  lemma RestoreFailsAfterWrite()
    ensures var snapshot := map["Curios" := List([Compound(map["StacksHandler" := Str("bad")])])];
      var r := Restore(map[BackupLabel := Compound(snapshot)], map[]);
      && r.code == 0
      && Resolve(Compound(r.nbt), InventoryPath) == Some(Compound(snapshot))
  {
    var snapshot := map["Curios" := List([Compound(map["StacksHandler" := Str("bad")])])];
    assert SlotThrows(Elements(snapshot["Curios"])[0]);
  }

  /** A `Curios` that is a scalar tag is still stored by backup, but the count throws and the command returns 0. */
  lemma BackupFailsOnScalarCurios(store: Store)
    ensures var inv := Compound(map["Curios" := Int(3)]);
      var r := Backup(map["ForgeCaps" := Compound(map["curios:inventory" := inv])], store);
      && r.code == 0
      && r.store[BackupLabel] == inv
  {
    var inv := Compound(map["Curios" := Int(3)]);
    InventoryStep(map["ForgeCaps" := Compound(map["curios:inventory" := inv])]);
  }

  /** After `clear_backup` there is nothing to restore. */
  lemma ClearBackupThenRestore(store: Store, nbt: Fields)
    ensures Restore(ClearBackup(store).store, nbt).code == 0
  {
  }
}

=== FILE: curios_print.dfy ===
/**
 * The per-item lines `print_curios` reports, with its defaults for a slot
 * without an identifier and an item without an id or a count. The text
 * rendering of each line, and the console dumps, belong to the host.
 */
module CuriosPrint {
  import opened Tags
  import opened CuriosSlots

  /** A slot's name: its `Identifier` tag, or `unknown_<index>` when it has none. */
  datatype SlotLabel = Identified(identifier: Tag) | Unnamed(index: nat)

  /** One reported item: the slot it sits in, its id and its count. */
  datatype ItemLine = ItemLine(slot: SlotLabel, id: string, count: int)

  function LabelOf(slot: Tag, index: nat): (l: SlotLabel)
    ensures l.Unnamed? <==> Get(slot, "Identifier").None?
    ensures l.Unnamed? ==> l.index == index
    ensures l.Identified? ==> Get(slot, "Identifier") == Some(l.identifier)
  {
    match Get(slot, "Identifier")
    case Some(identifier) => Identified(identifier)
    case None => Unnamed(index)
  }

  /**
   * The line for one element of an item list. The element is read with
   * `getCompound`, so one that is not a compound reports the defaults.
   */
  function LineOf(slotLabel: SlotLabel, element: Tag): (l: ItemLine)
    ensures l.slot == slotLabel
    ensures Get(element, "id").None? ==> l.id == "unknown"
    ensures Get(element, "Count").None? ==> l.count == 1
    ensures forall s :: Get(element, "id") == Some(Str(s)) ==> l.id == s
    ensures Get(element, "id").Some? && !Get(element, "id").value.Str? ==> l.id == ""
    ensures forall n :: Get(element, "Count") == Some(Byte(n)) ==> l.count == n
    ensures forall n :: Get(element, "Count") == Some(Int(n)) ==> l.count == n
  {
    var item := ElementCompound(element);
    var id := match Get(item, "id") case Some(t) => AsString(t) case None => "unknown";
    var count := match Get(item, "Count") case Some(t) => AsInt(t) case None => 1;
    ItemLine(slotLabel, id, count)
  }

  /** The lines of the slot at `index`: one per element of its item list, in order. */
  function SlotLines(slot: Tag, index: nat): (ls: seq<ItemLine>)
    ensures |ls| == SlotItemCount(slot)
    ensures forall j :: 0 <= j < |ls| ==> ls[j] == LineOf(LabelOf(slot, index), SlotItems(slot)[j])
  {
    seq(|SlotItems(slot)|, j requires 0 <= j < |SlotItems(slot)| => LineOf(LabelOf(slot, index), SlotItems(slot)[j]))
  }

  /** The lines of a run of slots, slot by slot. */
  function Lines(slots: seq<Tag>): seq<ItemLine> {
    if |slots| == 0 then []
    else Lines(slots[..|slots| - 1]) + SlotLines(slots[|slots| - 1], |slots| - 1)
  }

  /** `print_curios` reports one line per item the item count counts. */
  lemma {:induction false} LinesMatchCount(slots: seq<Tag>)
    ensures |Lines(slots)| == SumItems(slots)
    decreases |slots|
  {
    if |slots| > 0 {
      LinesMatchCount(slots[..|slots| - 1]);
    }
  }

  /**
   * Every line is the line of one item of one slot: line `k` is item `j` of
   * slot `i`, sits at position `SumItems(slots[..i]) + j`, and is labelled by
   * that slot.
   */
  lemma {:induction false} LinesComeFromSlots(slots: seq<Tag>, k: nat) returns (i: nat, j: nat)
    requires k < |Lines(slots)|
    ensures i < |slots| && j < |SlotItems(slots[i])|
    ensures k == SumItems(slots[..i]) + j
    ensures Lines(slots)[k] == LineOf(LabelOf(slots[i], i), SlotItems(slots[i])[j])
    decreases |slots|
  {
    var n := |slots| - 1;
    var before := Lines(slots[..n]);
    LinesMatchCount(slots[..n]);
    assert Lines(slots) == before + SlotLines(slots[n], n);
    if k < |before| {
      i, j := LinesComeFromSlots(slots[..n], k);
      assert slots[..n][i] == slots[i];
      assert slots[..n][..i] == slots[..i];
    } else {
      i, j := n, k - |before|;
      assert Lines(slots)[k] == SlotLines(slots[n], n)[j];
    }
  }

  /** `print_curios`: no lines (result 0) unless `ForgeCaps/curios:inventory/Curios` exists. */
  function PrintCurios(nbt: Fields): (r: Option<seq<ItemLine>>)
    ensures r.Some? <==> Resolve(Compound(nbt), CuriosPath).Some?
    ensures r.Some? ==> |r.value| == CountItems(At(Compound(nbt), InventoryPath))
    ensures r.Some? ==> r.value == Lines(Elements(Resolve(Compound(nbt), CuriosPath).value))
  {
    ResolveAppend(Compound(nbt), InventoryPath, ["Curios"]);
    assert InventoryPath + ["Curios"] == CuriosPath;
    match Resolve(Compound(nbt), CuriosPath)
    case None => None
    case Some(list) =>
      LinesMatchCount(Elements(list));
      Some(Lines(Elements(list)))
  }
}

=== FILE: curios_slots.dfy ===
/**
 * The walk over the Curios slot list that the backup, restore, print and
 * clear commands share: counting equipped items and clearing a slot while
 * keeping the slot itself.
 *
 * A slot is read with `ListTag.getCompound`, so an element that is not a
 * compound reads as an empty compound and is skipped; `Get` on a node that is
 * not a compound already reads as absent, so the slot functions below take
 * the raw element.
 */
module CuriosSlots {
  import opened Tags

  /** Where the Curios inventory and its slot list sit in a player's tree. */
  const InventoryPath: seq<string> := ["ForgeCaps", "curios:inventory"]
  const CuriosPath: seq<string> := ["ForgeCaps", "curios:inventory", "Curios"]

  /** Inside one slot. */
  const HandlerPath: seq<string> := ["StacksHandler"]
  const StacksPath: seq<string> := ["StacksHandler", "Stacks"]
  const ItemsPath: seq<string> := ["StacksHandler", "Stacks", "Items"]
  const CosmeticsPath: seq<string> := ["StacksHandler", "Cosmetics"]
  const CosmeticItemsPath: seq<string> := ["StacksHandler", "Cosmetics", "Items"]

  /** The item list of a slot: `StacksHandler/Stacks/Items` when that is a list (tag id 9), else none. */
  function SlotItems(slot: Tag): seq<Tag> {
    match Resolve(slot, ItemsPath)
    case Some(List(items)) => items
    case _ => []
  }

  /** The items a slot holds. */
  function SlotItemCount(slot: Tag): nat {
    |SlotItems(slot)|
  }

  /** The items of a run of slots, slot by slot in list order. */
  function SumItems(slots: seq<Tag>): nat {
    if |slots| == 0 then 0
    else SumItems(slots[..|slots| - 1]) + SlotItemCount(slots[|slots| - 1])
  }

  /** The item count of a Curios inventory; with no `Curios` list it is 0. */
  function CountItems(inv: Tag): nat {
    match Get(inv, "Curios")
    case None => 0
    case Some(list) => SumItems(Elements(list))
  }

  /**
   * A slot on which the counting loop throws: its `StacksHandler`, or the
   * `Stacks` inside it, is present but not a compound, and the loop asks it
   * for a key.
   */
  predicate SlotThrows(slot: Tag) {
    match Get(slot, "StacksHandler")
    case None => false
    case Some(handler) =>
      !handler.Compound? || (Get(handler, "Stacks").Some? && !Get(handler, "Stacks").value.Compound?)
  }

  /**
   * A `Curios` node the counting loop cannot walk: a scalar tag has no
   * `size()`, and a non-empty number array has no `getCompound`. A list is
   * walked; a compound is read as holding no slots.
   */
  predicate CuriosNodeThrows(list: Tag) {
    match list
    case List(_) => false
    case Compound(_) => false
    case ByteArray(values) => |values| > 0
    case IntArray(values) => |values| > 0
    case LongArray(values) => |values| > 0
    case _ => true
  }

  /**
   * The counting loop over an inventory throws: the inventory is not a
   * compound, its `Curios` node cannot be walked, or one of its slots throws.
   */
  predicate CountThrows(inv: Tag) {
    || !inv.Compound?
    || match Get(inv, "Curios")
       case None => false
       case Some(list) =>
         CuriosNodeThrows(list) || exists i :: 0 <= i < |Elements(list)| && SlotThrows(Elements(list)[i])
  }

  /**
   * The counting loop the commands run over `Curios`: it stops with `thrown`
   * at the first slot it cannot read, and otherwise returns the item count.
   */
  method CountCurioItems(inv: Tag) returns (count: nat, thrown: bool)
    ensures thrown <==> CountThrows(inv)
    ensures !thrown ==> count == CountItems(inv)
  {
    count := 0;
    thrown := !inv.Compound?;
    if thrown {
      return;
    }
    var found := Get(inv, "Curios");
    if found.Some? {
      if CuriosNodeThrows(found.value) {
        thrown := true;
        return;
      }
      var slots := Elements(found.value);
      var i := 0;
      while i < |slots|
        invariant 0 <= i <= |slots|
        invariant count == SumItems(slots[..i])
        invariant forall j :: 0 <= j < i ==> !SlotThrows(slots[j])
      {
        if SlotThrows(slots[i]) {
          thrown := true;
          return;
        }
        assert slots[..i + 1][..i] == slots[..i];
        count := count + SlotItemCount(slots[i]);
        i := i + 1;
      }
      assert slots[..|slots|] == slots;
    }
  }

  lemma {:induction false} SumItemsAppend(a: seq<Tag>, b: seq<Tag>)
    ensures SumItems(a + b) == SumItems(a) + SumItems(b)
    decreases |b|
  {
    if |b| == 0 {
      assert a + b == a;
    } else {
      assert (a + b)[..|a + b| - 1] == a + b[..|b| - 1];
      SumItemsAppend(a, b[..|b| - 1]);
    }
  }

  /** A run of slots that each hold no item holds no item. */
  lemma {:induction false} SumItemsZero(slots: seq<Tag>)
    requires forall i :: 0 <= i < |slots| ==> SlotItemCount(slots[i]) == 0
    ensures SumItems(slots) == 0
    decreases |slots|
  {
    if |slots| > 0 {
      SumItemsZero(slots[..|slots| - 1]);
    }
  }

  /** The slots `clear_curios` gets past its `continue` checks: `StacksHandler/Stacks` is a compound. */
  predicate Qualifies(slot: Tag) {
    Resolve(slot, StacksPath).Some? && Resolve(slot, StacksPath).value.Compound?
  }

  /** A slot the clear skips holds no countable item either. */
  lemma SkippedSlotHoldsNothing(slot: Tag)
    requires !Qualifies(slot)
    ensures SlotItemCount(slot) == 0
  {
    ResolveAppend(slot, StacksPath, ["Items"]);
    assert StacksPath + ["Items"] == ItemsPath;
  }

  /** The positions in a run of slots that the clear works on. */
  function QualifyingIndices(slots: seq<Tag>): set<nat> {
    set i: nat | i < |slots| && Qualifies(slots[i])
  }

  /** The number of slots in a run that the clear works on. */
  function QualifyingSlots(slots: seq<Tag>): nat {
    if |slots| == 0 then 0
    else QualifyingSlots(slots[..|slots| - 1]) + (if Qualifies(slots[|slots| - 1]) then 1 else 0)
  }

  /** The cleared-slot count is the number of positions whose slot the clear works on. */
  lemma {:induction false} QualifyingSlotsCounts(slots: seq<Tag>)
    ensures QualifyingSlots(slots) == |QualifyingIndices(slots)|
    decreases |slots|
  {
    if |slots| > 0 {
      var m := |slots| - 1;
      var prefix := slots[..m];
      QualifyingSlotsCounts(prefix);
      var extra: set<nat> := if Qualifies(slots[m]) then {m} else {};
      assert QualifyingIndices(slots) == QualifyingIndices(prefix) + extra by {
        forall i: nat | i < m
          ensures (i in QualifyingIndices(slots)) == (i in QualifyingIndices(prefix))
        {
          assert prefix[i] == slots[i];
        }
      }
      assert QualifyingIndices(prefix) !! extra;
    }
  }

  /**
   * One slot of `clear_curios`: empty its item list, empty its cosmetic item
   * list when that is a list, and zero its `HasCosmetic` flag when present.
   */
  function ClearSlot(slot: Tag): (r: Tag)
    ensures !Qualifies(slot) ==> r == slot
    ensures Qualifies(slot) ==> Qualifies(r) && Resolve(r, ItemsPath) == Some(List([]))
    ensures Qualifies(slot) ==>
              Resolve(r, CosmeticItemsPath)
              == if IsListAt(slot, CosmeticItemsPath) then Some(List([])) else Resolve(slot, CosmeticItemsPath)
    ensures Qualifies(slot) ==>
              Get(At(r, HandlerPath), "HasCosmetic")
              == if Get(At(slot, HandlerPath), "HasCosmetic").Some? then Some(Byte(0)) else None
    ensures Qualifies(slot) ==> SameExcept(slot, r, {"StacksHandler"}) && r.fields.Keys == slot.fields.Keys
    ensures Qualifies(slot) ==>
              && SameExcept(At(slot, HandlerPath), At(r, HandlerPath), {"Stacks", "Cosmetics", "HasCosmetic"})
              && At(r, HandlerPath).fields.Keys == At(slot, HandlerPath).fields.Keys
    ensures Qualifies(slot) ==> SameExcept(At(slot, StacksPath), At(r, StacksPath), {"Items"})
    ensures Qualifies(slot) && IsListAt(slot, CosmeticItemsPath) ==>
              SameExcept(At(slot, CosmeticsPath), At(r, CosmeticsPath), {"Items"})
    ensures Qualifies(slot) && !IsListAt(slot, CosmeticItemsPath) ==>
              Get(At(r, HandlerPath), "Cosmetics") == Get(At(slot, HandlerPath), "Cosmetics")
  {
    match Get(slot, "StacksHandler")
    case None => slot
    case Some(handler) =>
      match Get(handler, "Stacks")
      case None => slot
      case Some(stacks) =>
        if !stacks.Compound? then slot
        else
          var withItems := Put(handler, "Stacks", Put(stacks, "Items", List([])));
          var withCosmetics :=
            if IsListAt(handler, ["Cosmetics", "Items"])
            then Put(withItems, "Cosmetics", Put(handler.fields["Cosmetics"], "Items", List([])))
            else withItems;
          var withFlag :=
            if Get(handler, "HasCosmetic").Some? then Put(withCosmetics, "HasCosmetic", Byte(0))
            else withCosmetics;
          Put(slot, "StacksHandler", withFlag)
  }

  /** `clear_curios` over the slot list; a `Curios` node that is not a list is left alone. */
  function ClearList(list: Tag): (r: Tag)
    ensures !list.List? ==> r == list
    ensures list.List? ==> r.List? && |r.elems| == |list.elems|
    ensures list.List? ==> forall i :: 0 <= i < |list.elems| ==> r.elems[i] == ClearSlot(list.elems[i])
  {
    if list.List? then List(seq(|list.elems|, i requires 0 <= i < |list.elems| => ClearSlot(list.elems[i])))
    else list
  }

  /** Clearing a slot keeps it readable by the counting loop exactly when it was. */
  lemma ClearSlotKeepsReadable(slot: Tag)
    ensures SlotThrows(ClearSlot(slot)) == SlotThrows(slot)
  {
  }

  /** Clearing the slot list keeps the counting loop's throws where they were. */
  lemma ClearListKeepsReadable(list: Tag)
    ensures |Elements(ClearList(list))| == |Elements(list)|
    ensures forall i :: 0 <= i < |Elements(list)| ==> SlotThrows(Elements(ClearList(list))[i]) == SlotThrows(Elements(list)[i])
  {
    forall i | 0 <= i < |Elements(list)|
      ensures SlotThrows(Elements(ClearList(list))[i]) == SlotThrows(Elements(list)[i])
    {
      ClearSlotKeepsReadable(list.elems[i]);
    }
  }

  /** A cleared slot holds no item. */
  lemma ClearedSlotHoldsNothing(slot: Tag)
    ensures SlotItemCount(ClearSlot(slot)) == 0
  {
    if !Qualifies(slot) {
      SkippedSlotHoldsNothing(slot);
    }
  }

  /** After a clear the slot list holds no item. */
  lemma ClearedListHoldsNothing(list: Tag)
    ensures SumItems(Elements(ClearList(list))) == 0
  {
    var cleared := Elements(ClearList(list));
    forall i | 0 <= i < |cleared|
      ensures SlotItemCount(cleared[i]) == 0
    {
      ClearedSlotHoldsNothing(list.elems[i]);
    }
    SumItemsZero(cleared);
  }

  /** Clearing a slot a second time changes nothing. */
  lemma ClearSlotIdempotent(slot: Tag)
    ensures ClearSlot(ClearSlot(slot)) == ClearSlot(slot)
  {
    if Qualifies(slot) {
      var once := ClearSlot(slot);
      var handler := At(once, HandlerPath);
      var stacks := At(once, StacksPath);
      assert Get(once, "StacksHandler") == Some(handler);
      assert Get(handler, "Stacks") == Some(stacks);
      assert Get(stacks, "Items") == Some(List([]));
      PutExisting(stacks, "Items");
      PutExisting(handler, "Stacks");
      var withCosmetics :=
        if IsListAt(handler, ["Cosmetics", "Items"])
        then Put(handler, "Cosmetics", Put(handler.fields["Cosmetics"], "Items", List([])))
        else handler;
      if IsListAt(handler, ["Cosmetics", "Items"]) {
        var cosmetics := handler.fields["Cosmetics"];
        assert Get(cosmetics, "Items") == Some(List([]));
        PutExisting(cosmetics, "Items");
        PutExisting(handler, "Cosmetics");
      }
      assert withCosmetics == handler;
      if Get(handler, "HasCosmetic").Some? {
        PutExisting(handler, "HasCosmetic");
      }
      PutExisting(once, "StacksHandler");
    }
  }

  /** A cleared slot is worked on exactly when the original was. */
  lemma {:induction false} ClearKeepsQualifying(slots: seq<Tag>)
    ensures QualifyingSlots(Elements(ClearList(List(slots)))) == QualifyingSlots(slots)
    decreases |slots|
  {
    var cleared := Elements(ClearList(List(slots)));
    if |slots| > 0 {
      var n := |slots| - 1;
      assert cleared[..n] == Elements(ClearList(List(slots[..n])));
      ClearKeepsQualifying(slots[..n]);
      assert Qualifies(cleared[n]) == Qualifies(slots[n]);
    }
  }
}

=== FILE: inventory.dfy ===
/**
 * `inv_save` and `inv_load`: a partial backup of the player's vanilla state
 * and its merge back into the live tree.
 */
module Inventory {
  import opened Tags
  import opened Selectors

  /** The top-level keys `inv_save` copies when present. */
  const VanillaKeys: seq<string> := [
    "Inventory", "EnderItems", "SelectedItemSlot",
    "XpLevel", "XpTotal", "XpP",
    "FoodLevel", "FoodSaturationLevel", "FoodExhaustionLevel",
    "Health", "AbsorptionAmount", "ActiveEffects"
  ]

  /** The keys `inv_load` writes back into the tree (experience is applied separately). */
  const RestoreKeys: seq<string> := [
    "Inventory", "EnderItems", "SelectedItemSlot",
    "Health", "AbsorptionAmount", "ActiveEffects"
  ]

  /** The dotted keys 'PlayerPersisted' and 'PlayerPersisted.NBT', split at the dot. */
  const ForgeDataSelectors: seq<Selector> := [["PlayerPersisted"], ["PlayerPersisted", "NBT"]]

  /** The backup `inv_save` stores under "backup" (before the experience writes that follow the store). */
  function InvSave(nbt: Fields): (backup: Fields)
    ensures forall k :: k in VanillaKeys ==> (k in backup <==> k in nbt)
    ensures forall k :: k in VanillaKeys && k in nbt ==> backup[k] == nbt[k]
    ensures forall k :: k in backup ==> k in VanillaKeys || k == "ForgeData"
    ensures "ForgeData" in backup <==> "ForgeData" in nbt
    ensures "ForgeData" in backup ==> backup["ForgeData"].Compound?
  {
    CopyKeys(nbt, map[], VanillaKeys);
    var vanilla := CopySelected(Compound(nbt), Empty, Singletons(VanillaKeys)).fields;
    if "ForgeData" in nbt then
      vanilla["ForgeData" := CopySelected(nbt["ForgeData"], Empty, ForgeDataSelectors)]
    else
      vanilla
  }

  /**
   * The `ForgeData` part of the backup. With `PlayerPersisted` present it is
   * copied whole (the second selector then rewrites `NBT` with the value it
   * already has). Without it, the second selector stops early and copies a
   * top-level `ForgeData.NBT` instead of `ForgeData.PlayerPersisted.NBT`.
   */
  lemma SaveForgeData(nbt: Fields)
    requires "ForgeData" in nbt
    ensures var fd := nbt["ForgeData"];
      var saved := InvSave(nbt)["ForgeData"];
      && (Get(fd, "PlayerPersisted").Some? ==>
            saved == Compound(map["PlayerPersisted" := fd.fields["PlayerPersisted"]]))
      && (Get(fd, "PlayerPersisted").None? && Get(fd, "NBT").Some? ==>
            saved == Compound(map["NBT" := fd.fields["NBT"]]))
      && (Get(fd, "PlayerPersisted").None? && Get(fd, "NBT").None? ==>
            saved == Empty)
  {
    var fd := nbt["ForgeData"];
    var s0: Selector := ["PlayerPersisted"];
    var s1: Selector := ["PlayerPersisted", "NBT"];
    assert ForgeDataSelectors == [s0, s1];
    var afterFirst := CopyPath(fd, Empty, s0);
    var afterSecond := CopyPath(fd, afterFirst, s1);
    assert CopySelected(fd, Empty, ForgeDataSelectors) == afterSecond by {
      assert ForgeDataSelectors[1..] == [s1];
      assert ForgeDataSelectors[1..][1..] == [];
    }
    assert s1[1..] == ["NBT"];
    match Get(fd, "PlayerPersisted") {
      case Some(persisted) =>
        assert afterFirst == Compound(map["PlayerPersisted" := persisted]);
        assert CopyPath(persisted, persisted, ["NBT"]) == persisted by {
          if Get(persisted, "NBT").Some? {
            PutExisting(persisted, "NBT");
          }
        }
        assert afterSecond.fields == afterFirst.fields["PlayerPersisted" := persisted];
      case None =>
        assert afterFirst == Empty;
    }
  }

  /** With `PlayerPersisted.NBT` in the source, the backup holds it at that same path. */
  lemma SaveKeepsPersistedNbt(nbt: Fields)
    requires "ForgeData" in nbt
    requires Resolve(nbt["ForgeData"], ["PlayerPersisted", "NBT"]).Some?
    ensures Resolve(InvSave(nbt)["ForgeData"], ["PlayerPersisted", "NBT"])
         == Resolve(nbt["ForgeData"], ["PlayerPersisted", "NBT"])
  {
    SaveForgeData(nbt);
  }

  /** A host write of one experience field, in the order `inv_load` issues them. */
  datatype XpWrite = SetLevel(level: Tag) | SetTotal(total: Tag) | SetProgress(progress: Tag)

  function Stage(w: XpWrite): nat {
    match w
    case SetLevel(_) => 0
    case SetTotal(_) => 1
    case SetProgress(_) => 2
  }

  /** The experience writes `inv_load` makes from a backup. */
  function XpWrites(backup: Fields): (ws: seq<XpWrite>)
    ensures "XpLevel" !in backup ==> ws == []
    ensures "XpLevel" in backup ==> |ws| > 0 && ws[0] == SetLevel(backup["XpLevel"])
    ensures forall l :: SetLevel(l) in ws <==> "XpLevel" in backup && l == backup["XpLevel"]
    ensures forall t :: SetTotal(t) in ws <==> "XpLevel" in backup && "XpTotal" in backup && t == backup["XpTotal"]
    ensures forall p :: SetProgress(p) in ws <==> "XpLevel" in backup && "XpP" in backup && p == backup["XpP"]
    ensures forall i, j :: 0 <= i < j < |ws| ==> Stage(ws[i]) < Stage(ws[j])
  {
    if "XpLevel" !in backup then []
    else
      [SetLevel(backup["XpLevel"])]
      + (if "XpTotal" in backup then [SetTotal(backup["XpTotal"])] else [])
      + (if "XpP" in backup then [SetProgress(backup["XpP"])] else [])
  }

  /** What `inv_load` returns (0 or 1), the tree it sets, and its experience writes. */
  datatype LoadResult = LoadResult(code: nat, nbt: Fields, xpWrites: seq<XpWrite>)

  /**
   * `inv_load`: with no stored backup it fails and changes nothing; otherwise
   * it keeps every current key and overwrites only the restore keys the
   * backup has.
   */
  function InvLoad(backup: Option<Fields>, current: Fields): (r: LoadResult)
    ensures backup.None? ==> r == LoadResult(0, current, [])
    ensures backup.Some? ==> r.code == 1 && r.xpWrites == XpWrites(backup.value)
    ensures backup.Some? ==> r.nbt.Keys == current.Keys + (set k | k in RestoreKeys && k in backup.value)
    ensures backup.Some? ==> forall k :: k in r.nbt ==>
              r.nbt[k] == if k in RestoreKeys && k in backup.value then backup.value[k] else current[k]
  {
    match backup
    case None => LoadResult(0, current, [])
    case Some(saved) =>
      CopyKeys(saved, current, RestoreKeys);
      var merged := CopySelected(Compound(saved), Compound(current), Singletons(RestoreKeys)).fields;
      LoadResult(1, merged, XpWrites(saved))
  }

  /** The label `inv_save` stores its backup under in the player's persistent data. */
  const BackupKey := "backup"

  /**
   * `persistentData.getCompound("backup")` as the game defines it: the entry
   * when it is a compound, and a fresh empty compound (never null) otherwise.
   */
  function GetCompoundAsWritten(data: Fields): (b: Fields)
    ensures BackupKey in data && data[BackupKey].Compound? ==> b == data[BackupKey].fields
    ensures !(BackupKey in data && data[BackupKey].Compound?) ==> b == map[]
  {
    StoredCompound(data, BackupKey).GetOr(map[])
  }

  /** `inv_load` as written: the lookup never yields null, so the `!backup` failure never happens. */
  function InvLoadAsWritten(data: Fields, current: Fields): (r: LoadResult)
    ensures r.code == 1
  {
    InvLoad(Some(GetCompoundAsWritten(data)), current)
  }

  /** With no saved backup at all, `inv_load` as written reports success and changes nothing. */
  lemma NoBackupStillLoads(current: Fields)
    ensures InvLoadAsWritten(map[], current) == LoadResult(1, current, [])
  {
    var r := InvLoadAsWritten(map[], current);
    assert r.nbt.Keys == current.Keys;
    assert r.nbt == current;
  }

  /**
   * `inv_load` as intended: it fails, changing nothing, when no backup was
   * saved, and otherwise does what the written command does.
   */
  function LoadFromData(data: Fields, current: Fields): (r: LoadResult)
    ensures r.code == 0 <==> !(BackupKey in data && data[BackupKey].Compound?)
    ensures r.code == 0 ==> r == LoadResult(0, current, [])
    ensures r.code == 1 ==> r == InvLoadAsWritten(data, current)
  {
    InvLoad(StoredCompound(data, BackupKey), current)
  }

  /** Experience, food and `ForgeData` never come back through the tree. */
  lemma LoadNeverRestores(backup: Fields, current: Fields, k: string)
    requires k in ["XpLevel", "XpTotal", "XpP", "FoodLevel", "FoodSaturationLevel", "FoodExhaustionLevel", "ForgeData"]
    ensures var r := InvLoad(Some(backup), current);
      && (k in r.nbt <==> k in current)
      && (k in current ==> r.nbt[k] == current[k])
  {
  }

  /**
   * Saving one tree and loading the backup into another brings back exactly
   * the restore keys the first tree had, with experience replayed from it.
   */
  lemma SaveThenLoad(saved: Fields, current: Fields)
    ensures var r := InvLoad(Some(InvSave(saved)), current);
      && r.code == 1
      && (forall k :: k in RestoreKeys && k in saved ==> k in r.nbt && r.nbt[k] == saved[k])
      && (forall k :: k in current && !(k in RestoreKeys && k in saved) ==> k in r.nbt && r.nbt[k] == current[k])
      && (forall k :: k in r.nbt ==> k in current || (k in RestoreKeys && k in saved))
      && ("XpLevel" in saved <==> |r.xpWrites| > 0)
      && ("XpLevel" in saved ==> r.xpWrites[0] == SetLevel(saved["XpLevel"]))
  {
    var backup := InvSave(saved);
    assert forall k :: k in RestoreKeys ==> k in VanillaKeys;
    assert "XpLevel" in VanillaKeys;
  }
}

=== FILE: selectors.dfy ===
/**
 * The selective copier behind `inv_save` and `inv_load`: copy the node a
 * key path names from one tree into another, creating the intermediate
 * compounds the destination lacks.
 *
 * The walk is the one of CurioAndInventory.js:38-54, quirk included: when an
 * intermediate segment is missing from the source the walk stops there, and
 * the LAST key of the path is then looked up and copied at the level reached
 * instead of at its intended depth.
 */
module Selectors {
  import opened Tags

  /** A key path of one or more segments (a dotted key, already split). */
  type Selector = p: seq<string> | |p| > 0 witness ["_"]

  function Last(p: Selector): string {
    p[|p| - 1]
  }

  /** Copies `key` from `src` into `dst` when `src` has it; otherwise `dst` is returned as it is. */
  function CopyLeaf(src: Tag, dst: Tag, key: string): Tag {
    match Get(src, key)
    case None => dst
    case Some(v) => Put(dst, key, v)
  }

  /** Copies the node `path` names in `src` into `dst` (one iteration of the outer loop). */
  function CopyPath(src: Tag, dst: Tag, path: Selector): (r: Tag)
    ensures !dst.Compound? ==> r == dst
    ensures dst.Compound? ==> r.Compound? && dst.fields.Keys <= r.fields.Keys <= dst.fields.Keys + {path[0], Last(path)}
    ensures forall k :: k != path[0] && k != Last(path) ==> Get(r, k) == Get(dst, k)
    decreases |path|
  {
    if |path| == 1 then CopyLeaf(src, dst, path[0])
    else
      match Get(src, path[0])
      case None => CopyLeaf(src, dst, Last(path))
      case Some(child) =>
        var into := Get(dst, path[0]).GetOr(Empty);
        Put(dst, path[0], CopyPath(child, into, path[1..]))
  }

  /** No selector in `sels` starts or ends with `k`. */
  predicate Untouched(k: string, sels: seq<Selector>) {
    forall i :: 0 <= i < |sels| ==> k != sels[i][0] && k != Last(sels[i])
  }

  /** Applies the selectors in order; a later selector wins on an overlapping write. */
  function CopySelected(src: Tag, dst: Tag, sels: seq<Selector>): (r: Tag)
    ensures !dst.Compound? ==> r == dst
    ensures dst.Compound? ==> r.Compound? && dst.fields.Keys <= r.fields.Keys
    ensures forall k :: Untouched(k, sels) ==> Get(r, k) == Get(dst, k)
    decreases |sels|
  {
    if |sels| == 0 then dst
    else CopySelected(src, CopyPath(src, dst, sels[0]), sels[1..])
  }

  /** One single-segment selector per key: the `addIfExists` loop. */
  function Singletons(keys: seq<string>): seq<Selector> {
    seq(|keys|, i requires 0 <= i < |keys| => [keys[i]])
  }

  /**
   * Every compound node that already lies on the way down `keys` in `t` is a
   * compound, so writes along `keys` are never dropped.
   */
  predicate Writable(t: Tag, keys: seq<string>)
    decreases |keys|
  {
    t.Compound? && (|keys| == 0 || keys[0] !in t.fields || Writable(t.fields[keys[0]], keys[1..]))
  }

  /**
   * When the whole path exists in the source, the destination ends up holding
   * the source's node at the same path (so every intermediate compound exists
   * there too, created if it was missing).
   */
  lemma {:induction false} CopyPathDelivers(src: Tag, dst: Tag, path: Selector)
    requires Resolve(src, path).Some?
    requires Writable(dst, path[..|path| - 1])
    ensures Resolve(CopyPath(src, dst, path), path) == Resolve(src, path)
    decreases |path|
  {
    var r := CopyPath(src, dst, path);
    if |path| == 1 {
      assert Get(r, path[0]) == Get(src, path[0]);
    } else {
      var child := Get(src, path[0]).value;
      var into := Get(dst, path[0]).GetOr(Empty);
      var rest: Selector := path[1..];
      assert rest[..|rest| - 1] == path[..|path| - 1][1..];
      assert Writable(into, rest[..|rest| - 1]);
      CopyPathDelivers(child, into, rest);
      assert Get(r, path[0]) == Some(CopyPath(child, into, rest));
    }
  }

  /**
   * The early stop: with the first segment missing from the source, only the
   * last key is copied, and at the top level.
   */
  lemma CopyPathStopsEarly(src: Tag, dst: Tag, path: Selector)
    requires |path| >= 2 && Get(src, path[0]).None? && dst.Compound?
    ensures var r := CopyPath(src, dst, path);
      && Get(r, Last(path)) == (if Get(src, Last(path)).Some? then Get(src, Last(path)) else Get(dst, Last(path)))
      && forall k :: k != Last(path) ==> Get(r, k) == Get(dst, k)
  {
  }

  /**
   * Copying a list of single keys: each listed key the source has takes the
   * source's value, every other key keeps the destination's, and nothing else
   * is added.
   */
  lemma {:induction false} CopyKeys(src: Fields, dst: Fields, keys: seq<string>)
    ensures var r := CopySelected(Compound(src), Compound(dst), Singletons(keys));
      && r.Compound?
      && r.fields.Keys == dst.Keys + (set k | k in keys && k in src)
      && forall k :: k in r.fields ==> r.fields[k] == if k in keys && k in src then src[k] else dst[k]
    decreases |keys|
  {
    var sels := Singletons(keys);
    var r := CopySelected(Compound(src), Compound(dst), sels);
    if |keys| > 0 {
      var step := CopyPath(Compound(src), Compound(dst), sels[0]);
      assert sels[1..] == Singletons(keys[1..]);
      CopyKeys(src, step.fields, keys[1..]);
      assert forall k :: k in keys <==> k == keys[0] || k in keys[1..];
    } else {
      assert (set k | k in keys && k in src) == {};
    }
  }

  /** The worked example: {A: {B: 5}, C: 9} copied by ["A", "B"] into {A: {X: 1}}. */
  lemma CopyExample()
    ensures CopySelected(
              Compound(map["A" := Compound(map["B" := Int(5)]), "C" := Int(9)]),
              Compound(map["A" := Compound(map["X" := Int(1)])]),
              [["A", "B"]])
            == Compound(map["A" := Compound(map["X" := Int(1), "B" := Int(5)])])
  {
    var src := Compound(map["A" := Compound(map["B" := Int(5)]), "C" := Int(9)]);
    var dst := Compound(map["A" := Compound(map["X" := Int(1)])]);
    var sel: Selector := ["A", "B"];
    assert sel[1..] == ["B"];
    assert CopyPath(Compound(map["B" := Int(5)]), Compound(map["X" := Int(1)]), ["B"])
        == Compound(map["X" := Int(1), "B" := Int(5)]);
  }
}

=== FILE: tags.dfy ===
/**
 * The tagged value tree (Minecraft's NBT) that holds a player's state, and
 * the read and write primitives every command is built from.
 *
 * Trees are immutable values: a "copy" of a subtree is the subtree itself,
 * so a snapshot can never alias the live tree it was taken from.
 */
module Tags {

  datatype Option<+T> = None | Some(value: T) {
    function GetOr(default: T): T {
      match this
      case Some(v) => v
      case None => default
    }
  }

  /** One node of the tree: the twelve tag kinds of the NBT format. */
  datatype Tag =
    | Byte(byteValue: int)
    | Short(shortValue: int)
    | Int(intValue: int)
    | Long(longValue: int)
    | Float(floatValue: real)
    | Double(doubleValue: real)
    | ByteArray(bytes: seq<int>)
    | Str(text: string)
    | List(elems: seq<Tag>)
    | Compound(fields: map<string, Tag>)
    | IntArray(ints: seq<int>)
    | LongArray(longs: seq<int>)

  /** The entries of a compound; the root of a player's tree is one. */
  type Fields = map<string, Tag>

  const Empty: Tag := Compound(map[])

  /** `compound.get(key)`: a missing key, or a node that is not a compound, reads as absent. */
  function Get(t: Tag, key: string): Option<Tag> {
    if t.Compound? && key in t.fields then Some(t.fields[key]) else None
  }

  /** `compound.put(key, v)`: writing into a node that is not a compound changes nothing. */
  function Put(t: Tag, key: string, v: Tag): (r: Tag)
    ensures t.Compound? ==> r.Compound? && r.fields.Keys == t.fields.Keys + {key}
    ensures !t.Compound? ==> r == t
    ensures t.Compound? ==> Get(r, key) == Some(v)
    ensures forall k :: k != key ==> Get(r, k) == Get(t, k)
  {
    if t.Compound? then Compound(t.fields[key := v]) else t
  }

  /** Follows `path` key by key; absent as soon as one segment is absent. */
  function Resolve(t: Tag, path: seq<string>): Option<Tag>
    decreases |path|
  {
    if |path| == 0 then Some(t)
    else
      match Get(t, path[0])
      case None => None
      case Some(child) => Resolve(child, path[1..])
  }

  /** The node at `path`, or an empty compound when there is none. */
  function At(t: Tag, path: seq<string>): Tag {
    Resolve(t, path).GetOr(Empty)
  }

  /** True when `path` leads to a list. */
  predicate IsListAt(t: Tag, path: seq<string>) {
    Resolve(t, path).Some? && Resolve(t, path).value.List?
  }

  /** The elements of a list node; any other node has none. */
  function Elements(t: Tag): seq<Tag> {
    if t.List? then t.elems else []
  }

  /**
   * The compound stored under `key` in a compound's entries
   * (`CompoundTag.getCompound` with a null check): absent when the entry is
   * missing or not a compound.
   */
  function StoredCompound(data: Fields, key: string): (b: Option<Fields>)
    ensures b.Some? <==> key in data && data[key].Compound?
    ensures b.Some? ==> b.value == data[key].fields
  {
    if key in data && data[key].Compound? then Some(data[key].fields) else None
  }

  /**
   * `ListTag.getCompound(i)`: an element that is not a compound reads as a
   * fresh empty compound.
   */
  function ElementCompound(t: Tag): (r: Tag)
    ensures r.Compound?
    ensures forall k :: Get(r, k) == Get(t, k)
  {
    if t.Compound? then t else Empty
  }

  /** `b` equals `a` on every key outside `changed`, and both are compounds. */
  predicate SameExcept(a: Tag, b: Tag, changed: set<string>) {
    && a.Compound?
    && b.Compound?
    && a.fields.Keys - changed == b.fields.Keys - changed
    && forall k :: k in a.fields && k !in changed ==> k in b.fields && b.fields[k] == a.fields[k]
  }

  /** Two's-complement truncation of an integer to 32 bits. */
  function Wrap32(v: int): (r: int)
    ensures -0x8000_0000 <= r < 0x8000_0000
    ensures (r - v) % 0x1_0000_0000 == 0
  {
    (v + 0x8000_0000) % 0x1_0000_0000 - 0x8000_0000
  }

  /** `getAsInt` of a numeric tag: floating kinds round down; a non-numeric tag reads 0. */
  function AsInt(t: Tag): int {
    match t
    case Byte(v) => v
    case Short(v) => v
    case Int(v) => v
    case Long(v) => Wrap32(v)
    case Float(f) => f.Floor
    case Double(d) => d.Floor
    case _ => 0
  }

  /** `getString` of a tag: the text of a string tag, otherwise the empty string. */
  function AsString(t: Tag): string {
    if t.Str? then t.text else ""
  }

  lemma {:induction false} ResolveAppend(t: Tag, p: seq<string>, q: seq<string>)
    ensures Resolve(t, p + q) == match Resolve(t, p) case None => None case Some(u) => Resolve(u, q)
    decreases |p|
  {
    if |p| > 0 {
      assert (p + q)[0] == p[0];
      assert (p + q)[1..] == p[1..] + q;
      match Get(t, p[0]) {
        case None =>
        case Some(child) => ResolveAppend(child, p[1..], q);
      }
    } else {
      assert p + q == q;
    }
  }

  lemma PutExisting(t: Tag, key: string)
    requires Get(t, key).Some?
    ensures Put(t, key, Get(t, key).value) == t
  {
    assert t.fields[key := t.fields[key]] == t.fields;
  }

  /** Two changes that each keep every key outside `changed` keep it across both. */
  lemma SameExceptTrans(a: Tag, b: Tag, c: Tag, changed: set<string>)
    requires SameExcept(a, b, changed)
    requires SameExcept(b, c, changed)
    ensures SameExcept(a, c, changed)
  {
  }

  /** Compounds equal outside `changed` that also agree on `changed` are equal. */
  lemma SameExceptAgree(a: Tag, b: Tag, changed: set<string>)
    requires SameExcept(a, b, changed)
    requires forall k :: k in changed ==> Get(a, k) == Get(b, k)
    ensures a == b
  {
    forall k
      ensures k in a.fields <==> k in b.fields
    {
      if k in changed {
        assert Get(a, k) == Get(b, k);
      } else {
        assert k in a.fields.Keys - changed <==> k in b.fields.Keys - changed;
      }
    }
    forall k | k in a.fields
      ensures a.fields[k] == b.fields[k]
    {
      if k in changed {
        assert Get(a, k) == Get(b, k);
      }
    }
    assert a.fields == b.fields;
  }
}
